=== FILE: README.md ===
# seq-log-parser: the rewriting proxy, modelled in Dafny

seq-log-parser is an HTTP proxy that sits in front of a Seq log collector. It
receives a batch of structured log events, either as CLEF (one JSON object per
line) or as an `{"Events": [...]}` envelope. Each event's message field is
matched against an ordered list of regular expressions read from numbered
environment variables. The named groups of the first matching pattern are
copied into the event's `Properties`, together with an optional static
property, and the message can be replaced by one group. The batch is then
re-encoded as CLEF and posted to the collector.

The model is pure and functional. It has six modules:

- `Wrappers`: `Option` and `Result`.
- `Text`: Python's `strip`, `split`, `join`, `split('=', 1)` and decimal rendering.
- `Json`: the JSON value type; an entry is a `map<string, Value>`.
- `Config`: the start-up configuration: `SERVER_URL` normalisation, the message field, `OVERWRITE_CONTENTS` and the rule list.
- `RuleEngine`: `transform_entry`.
- `Ingest`: the request handler's decode, transform loop, encode and header logic.

Two foreign libraries are oracles passed in as function parameters:

- Python's regular expressions: `matcher(pattern, text)` is the `groupdict()` of `re.match`, or `None`.
- JSON: `parse` is `json.loads` and `dump` is `json.dumps`.

Every exception the source can raise on these paths is an explicit outcome:

- A `ValueError` is caught by the batch loop.
- Any other exception crashes the request.

## Model

| member | source | states |
|---|---|---|
| `Text.Strip` | seq_log_parser/ingest.py:105 | the stripped line is the slice of the line that starts right after its leading whitespace, is followed only by whitespace, and neither starts nor ends with whitespace; it is empty exactly when the line is all whitespace |
| `Text.LeadingSpaces` | seq_log_parser/ingest.py:105 | the count covers exactly the whitespace the line starts with: every counted character is whitespace and the next one is not |
| `Text.TrailingSpaces` | seq_log_parser/ingest.py:105 | the count covers exactly the whitespace the line ends with: every counted character is whitespace and the one before them is not |
| `Text.StripIdempotent` | seq_log_parser/ingest.py:105 | stripping twice is stripping once |
| `Text.Split` | seq_log_parser/ingest.py:105 | `split('\n')` gives at least one piece, no piece contains a newline, and joining the pieces with newlines gives back the body |
| `Text.SplitJoin` | seq_log_parser/ingest.py:130 | splitting a newline-join of newline-free parts recovers exactly the parts |
| `Text.SplitOnce` | seq_log_parser/ingest.py:49 | `split('=', 1)` gives two pieces exactly when there is an '=', the first piece has no '=', and key + '=' + value rebuilds the text; otherwise one piece, the text itself |
| `Text.Decimal` | seq_log_parser/ingest.py:46 | the index is rendered as decimal digits, one digit exactly for indices below ten |
| `Text.DecimalValue` | seq_log_parser/ingest.py:46 | the rendered digits denote the index itself, with no leading zero, so index 10 is `REGEX10` |
| `Text.DecimalInjective` | seq_log_parser/ingest.py:46 | distinct indices give distinct `REGEXi` suffixes |
| `Config.RunBound` | seq_log_parser/ingest.py:45-53 | a run of present keys `REGEX1` … `REGEXk` is no longer than the environment, so the counting loop stops |
| `Config.NumberedFrom` | seq_log_parser/ingest.py:45-53 | from index i on, one rule per present `REGEXj` in index order, and the key after the last rule is absent |
| `Config.RuleList` | seq_log_parser/ingest.py:38-53 | without `REGEX`, the rules are exactly those of indices 1 to n, where `REGEX`n+1 is the first missing key; with `REGEX`, the one rule it names |
| `Config.NumberedRules` | seq_log_parser/ingest.py:45-53 | patterns are `REGEX1` … `REGEXn`; the property list is parallel, `None` exactly where `REGEX_PROPERTYi` is absent, and split at the first '=' |
| `Config.RuleListAsWritten` | seq_log_parser/ingest.py:38-53 | the code as written yields a rule list exactly when `REGEX` is absent, and then the same list as the corrected code |
| `Config.SingleRegexBranch` | seq_log_parser/ingest.py:38-44 | for every environment with `REGEX` set, the branch as written fails: with `REGEX_PROPERTY` as well, `split` on the environment object aborts start-up; without it, the property list is unbound; the corrected branch yields exactly the one rule `REGEX` names |
| `Config.SingleRegexBranchFails` | seq_log_parser/ingest.py:38-44 | example: with `REGEX=x` and `REGEX_PROPERTY=k=v` start-up fails, with `REGEX=x` alone the property list is unbound, and the corrected branch yields the rule for `x` with property `k`, group `v` |
| `Config.NormalizeServerUrl` | seq_log_parser/ingest.py:28-30 | the URL ends with '/', extends the given address by at most that '/', and is unchanged exactly when the address already ended with '/' |
| `Config.NormalizeIdempotent` | seq_log_parser/ingest.py:29-30 | normalising twice is normalising once |
| `Config.LoadSettings` | seq_log_parser/ingest.py:28-53 | start-up succeeds exactly when `SEQ_ADDRESS` is set; the base URL is that address normalised; the message field defaults to `@mt`; the overwrite group is the value of `OVERWRITE_CONTENTS` when set and absent otherwise; the rules are the rule list |
| `RuleEngine.FirstMatch` | seq_log_parser/ingest.py:61-62 | the hit is a rule whose pattern matches, and every earlier pattern fails; no hit means no pattern matches |
| `RuleEngine.FirstMatchIgnoresLater` | seq_log_parser/ingest.py:61-81 | the rules after the first match can be replaced by anything without changing the hit |
| `RuleEngine.FirstMatchWins` | seq_log_parser/ingest.py:61-81 | the entry's outcome is exactly the first matching rule's effects applied once, and it does not depend on the rules after that one |
| `RuleEngine.ApplyRuleIgnoresRules` | seq_log_parser/ingest.py:66-79 | a matched rule's effects depend on the message field and the overwrite group, never on the other rules |
| `RuleEngine.WriteProperties` | seq_log_parser/ingest.py:69-74 | assigning into `Properties` fails exactly when there is something to assign and `Properties` is not an object; written keys take the new values, other keys are kept, and no other top-level field changes |
| `RuleEngine.StoreGroups` | seq_log_parser/ingest.py:66-71 | `Properties` is created when absent and every named group is written into it, keys no group names are kept; only a non-object `Properties` with a group to write fails, with the `TypeError` of item assignment |
| `RuleEngine.StoreStatic` | seq_log_parser/ingest.py:72-74 | a property without '=' cannot be unpacked and leaves the stored entry as it was; otherwise the static key is set to the static value and nothing else changes; only a non-object `Properties` makes the write fail |
| `RuleEngine.StoreMatch` | seq_log_parser/ingest.py:66-74 | unpacking the property fails exactly when the groups could be stored and the property has no '='; it raises the `TypeError` of item assignment exactly when an existing `Properties` is not an object and there is a group or a static property to write; otherwise the groups and the property are stored |
| `RuleEngine.StoreMatchFrame` | seq_log_parser/ingest.py:66-74 | storing creates `Properties` when absent and changes no other top-level field |
| `RuleEngine.StoreMatchProperties` | seq_log_parser/ingest.py:66-74 | every group lands in `Properties` unless the static key overrides it; keys no group names are kept; nothing but the groups and the static key is added |
| `RuleEngine.StoreMatchStatic` | seq_log_parser/ingest.py:72-74 | the static key holds the static value even when a group has the same name |
| `RuleEngine.ApplyRule` | seq_log_parser/ingest.py:66-79 | a matched rule never yields the no-match rejection; it raises `ValueError` exactly when the store stage could not unpack the property, forwarding the entry as stored; its only uncaught errors are a non-object `Properties` and a missing overwrite group; it rewrites the entry exactly when the store stage succeeded and the overwrite group, if enabled, is one of the match's groups |
| `RuleEngine.Transform` | seq_log_parser/ingest.py:56-85 | a non-object entry, a missing message field and a non-string message each raise their own error before any rule is tried; an entry is rewritten only when some rule matches its message, and a match is rewritten exactly when the first matching rule's store stage succeeds and the overwrite group, if enabled, exists; every other uncaught error is a non-object `Properties` or the missing overwrite group |
| `RuleEngine.MatchTransforms` | seq_log_parser/ingest.py:58-85 | a matched entry whose `Properties` is absent or an object, whose rule's property is absent or contains '=', and whose overwrite group (if enabled) exists is always rewritten |
| `RuleEngine.Overwrite` | seq_log_parser/ingest.py:76-79 | when enabled, the message field and an existing `MessageTemplate` take the group's value, and nothing else changes; a missing group fails; when disabled, the entry is unchanged |
| `RuleEngine.NoMatchExactly` | seq_log_parser/ingest.py:58-83 | the entry is rejected as "no regex would match" exactly when it is an object with a message field and either there are no rules or the string message matches none |
| `RuleEngine.PropertiesOnMatch` | seq_log_parser/ingest.py:66-70 | after a match that transforms the entry, `Properties` exists and holds every group; keys no group names are kept; nothing else is added; only `Properties` can be a new top-level field; fields other than the message field and `MessageTemplate` are untouched |
| `RuleEngine.StaticPropertyWins` | seq_log_parser/ingest.py:69-74 | after a match, `Properties[key] == value` for the rule's static property, even when a group has that name |
| `RuleEngine.OverwriteRule` | seq_log_parser/ingest.py:76-79 | when enabled, the message field becomes the group's value, and `MessageTemplate` too when it already existed; `MessageTemplate` is never created; when disabled, both stay as they were |
| `RuleEngine.MissingOverwriteGroup` | seq_log_parser/ingest.py:76-79 | when the rule's property is absent or contains '=', an `OVERWRITE_CONTENTS` group the matching pattern lacks makes the entry fail; with a property lacking '=', the `ValueError` at unpacking comes first and the entry is forwarded partly rewritten |
| `Ingest.ApiKey` | seq_log_parser/ingest.py:92-96 | the key is the header key when that is non-empty, and otherwise the `apiKey` argument, present or not; so a key exists exactly when a non-empty header key or an `apiKey` argument was given |
| `Ingest.OutboundHeaders` | seq_log_parser/ingest.py:123-126 | `Content-Type` is always the CLEF media type; `X-Seq-ApiKey` is present exactly when there is a key and carries it; there are no other headers |
| `Ingest.ApiKeyForwarded` | seq_log_parser/ingest.py:92-126 | on an acknowledged request, the outbound headers carry `X-Seq-ApiKey` exactly when a non-empty header or `apiKey` argument was given; the header wins; CLEF `Content-Type` is always set |
| `Ingest.ClefDetection` | seq_log_parser/ingest.py:101-102 | a request is read as CLEF exactly when it has a `clef` argument or a Content-Type starting with the CLEF media type, so a CLEF type with a charset parameter still counts and a missing header does not |
| `Ingest.KeepNonblank` | seq_log_parser/ingest.py:105 | every kept line is non-empty and stripped, and no more lines are kept than given (the kept lines themselves are fixed by the next two lemmas) |
| `Ingest.KeepNonblankOne` | seq_log_parser/ingest.py:105 | one line is kept, in its stripped form, exactly when it is not all whitespace |
| `Ingest.KeepNonblankAppend` | seq_log_parser/ingest.py:105 | filtering distributes over concatenation, so kept lines stay in order and blank lines vanish wherever they stand |
| `Ingest.KeepNonblankOfFixed` | seq_log_parser/ingest.py:105 | lines that `strip()` leaves non-empty and unchanged are all kept, in order |
| `Ingest.KeepNonblankOfTrimmed` | seq_log_parser/ingest.py:105 | non-blank, already stripped lines are all kept as they are |
| `Ingest.ClefLines` | seq_log_parser/ingest.py:105 | CLEF lines are non-empty and stripped |
| `Ingest.ClefLinesOfLines` | seq_log_parser/ingest.py:105 | the CLEF lines of a body made of newline-free lines are exactly those lines filtered: stripped, blank ones dropped, in order |
| `Ingest.ParseLines` | seq_log_parser/ingest.py:105 | parsing succeeds exactly when every line parses, giving one value per line in order; on failure, the error is a line that does not parse |
| `Ingest.DecodeClef` | seq_log_parser/ingest.py:104-105 | decoding succeeds exactly when every non-blank stripped line parses; it then yields one entry per such line, in line order; a failure names a line that is one of them and does not parse |
| `Ingest.EventsAsEntries` | seq_log_parser/ingest.py:108-118 | iterating `Events` yields a list's items and a string's characters; an empty object yields nothing; a non-empty object yields its keys, and the first of them, a string, fails `transform_entry`; any other value cannot be iterated |
| `Ingest.DecodeEnvelope` | seq_log_parser/ingest.py:106-108 | a body that is not JSON and a body without an `Events` member in a JSON object fail with their own errors; otherwise the entries are what iterating `Events` yields, and its failure is the decoder's; none of these is the caught JSON error |
| `Ingest.DecodeRequest` | seq_log_parser/ingest.py:101-108 | a CLEF request decodes exactly when every non-blank stripped line parses, to those parsed lines; an enveloped one decodes exactly when its body is a JSON object whose `Events` iterate to entries, to those entries; only CLEF decoding can raise the caught JSON error, and it names an unparsable line |
| `Ingest.EnvelopeRoundTrip` | seq_log_parser/ingest.py:106-108 | if `json.loads` reads back what `json.dumps` writes, a non-CLEF request whose body is an envelope around a batch decodes to that batch |
| `Ingest.ProcessBatch` | seq_log_parser/ingest.py:115-121 | the loop succeeds exactly when no entry raises an uncaught error; it then keeps one entry per input, in order, each the transformed entry or the input; a failure is some entry's fault |
| `Ingest.PassThrough` | seq_log_parser/ingest.py:115-121 | an entry no rule matches is forwarded unchanged, a transformed one as transformed, and the batch keeps its length |
| `Ingest.Encode` | seq_log_parser/ingest.py:130 | an empty batch is the empty body; when no serialised entry contains a newline, splitting the body at newlines recovers exactly one serialised entry per line, in order |
| `Ingest.Dumps` | seq_log_parser/ingest.py:130 | one `json.dumps` line per entry, in entry order |
| `Ingest.ClefRoundTrip` | seq_log_parser/ingest.py:105-130 | if `json.dumps` writes a single unpadded line that `json.loads` reads back, CLEF-decoding the encoded batch returns the batch |
| `Ingest.Dispatch` | seq_log_parser/ingest.py:115-131 | the request to the collector is built exactly when no entry raises an uncaught error, with the base URL plus `api/events/raw`, the CLEF headers and the processed batch; otherwise the failure is the fault of some entry of the batch |
| `Ingest.HandleAsWritten` | seq_log_parser/ingest.py:103-116 | as written, a malformed CLEF line ends the request in `UnboundLocalError`; every other request gets the same reply as the corrected handler |
| `Ingest.Handle` | seq_log_parser/ingest.py:90-131 | the outbound URL is the base URL plus `api/events/raw`; a decoded request is acknowledged exactly when no entry raises an uncaught error; a rejected envelope crashes with that rejection; an unbound entry list never happens |
| `Ingest.MalformedClefLine` | seq_log_parser/ingest.py:103-116 | when some CLEF line fails to parse, the handler as written crashes with `UnboundLocalError`; the corrected handler forwards an empty body and acknowledges |
| `Ingest.UnmatchedBatchKept` | seq_log_parser/ingest.py:115-121 | a batch that no rule matches leaves the loop unchanged |
| `Ingest.HandleDecoded` | seq_log_parser/ingest.py:115-131 | a decoded request whose batch transforms is acknowledged with a post of the transformed batch, one line per entry, to the base URL plus `api/events/raw` |
| `Ingest.UnmatchedBatchRoundTrip` | seq_log_parser/ingest.py:101-130 | a CLEF batch that no rule matches is forwarded as a body that decodes to the same entries |
| `Ingest.EmptyBatchStillPosted` | seq_log_parser/ingest.py:115-131 | a CLEF body of only whitespace is still posted, with an empty body |

## Left out

- Regular-expression semantics: `re.compile` and `re.match` are the `matcher` oracle. Nothing is stated about how a pattern matches; the model only uses the oracle's `groupdict()`. An invalid pattern, which raises at start-up, is not modelled.
- JSON: `json.loads`, `json.dumps` and `request.get_json()` are the `parse` and `dump` oracles. Numbers are integers.
- HTTP: Flask routing, `@as_json`, case-insensitive header lookup, multi-valued query arguments, `get_json()`'s Content-Type check, and UTF-8 decoding of the body are left out. The body is a decoded string, and header names are canonical.
- The POST to the collector (`requests.post`, `raise_for_status`, lines 131-142) is network I/O. The handler returns the request it would send. The reply `{}` does not depend on how that request fares, so that reply is not modelled separately.
- Metrics counters (`matched.regex`, `matched.nothing`, `entries.total`, `entries.calls`, `seq.successes`, `seq.failures`) and all logging are instrumentation, and are left out.
- seq_log_parser/run.py is process start-up only (gevent patching, `run_simple`), and is not part of this model.
- Ingest.PassThrough: states the no-match and transformed cases only. An entry whose static property has no '=' raises `ValueError` after its groups were written in place. It is forwarded partly rewritten, neither unchanged nor fully transformed. `ProcessBatch`, `StoreMatch` and `StoreStatic` state this case exactly.
- RuleEngine.PropertiesOnMatch: the statement about the contents of `Properties` assumes two things. The message field is not `Properties` itself, and an existing `Properties` is an object. Otherwise the overwrite step can replace `Properties`, or a non-object `Properties` survives a match that writes nothing.
- Key order: a Python dict keeps insertion order, so the source appends `Properties` last, writes the groups in `groupdict()` order and serialises entries in that order. An entry here is a `map<string, Value>`, which has no order, so the model states which keys and values an entry holds but not the order in which they are serialised.
- Drop rules, level rewriting, storing captures at the top level and templated overwrites do not exist in this version of the code, so they are not modelled. The overwrite is a single group name. A group the pattern lacks raises `IndexError` and fails the request; it does not fall back to the no-match path.
- An empty processed batch is still posted, as an empty body. The code does not skip the outbound call, and the model follows the code.

## Findings

| source | as written | input that shows it | evidently intended | confidence | as-written member | corrected member |
|---|---|---|---|---|---|---|
| seq_log_parser/ingest.py:38-44 | The single-`REGEX` branch calls `os.environ.split('=', 1)`. When `REGEX_PROPERTY` is absent, it never binds `CUSTOM_PROPERTIES`. | `REGEX=x, REGEX_PROPERTY=k=v` raises AttributeError at import. `REGEX=x` alone raises NameError in every `transform_entry` call that reaches the rule loop, that is, for every object entry with a message field. | The property is `os.environ['REGEX_PROPERTY'].split('=', 1)`, or `None` when absent. | high; not executed | `Config.RuleListAsWritten`, `Config.SingleRegexBranch`, `Config.SingleRegexBranchFails` | `Config.RuleList`, `Config.SingleRegexBranch` |
| seq_log_parser/ingest.py:103-116 | A CLEF line `json.loads` rejects is caught and logged. `entries` is then never assigned, and the loop raises `UnboundLocalError`. | a request with `?clef` whose body is `{` | The request is still acknowledged; the undecodable batch is treated as empty. | medium; not executed | `Ingest.HandleAsWritten`, `Ingest.MalformedClefLine` | `Ingest.Handle`, `Ingest.MalformedClefLine` |

=== FILE: config.dfy ===
/** Start-up configuration of the proxy (seq_log_parser/ingest.py, module
    level): the collector's base URL, the message field, the overwrite group
    and the ordered rule list read from numbered environment variables. The
    process environment is a `map<string, string>`. */
module Config {
  import opened Wrappers
  import opened Text

  /** One rule: a pattern (its source text; compiling and matching are the
      regex oracle's business) and the static property given for it, kept as
      the one- or two-element list `split('=', 1)` yields, or `None`. */
  datatype Rule = Rule(pattern: string, property: Option<seq<string>>)

  /** Everything the request handler reads from module-level globals. */
  datatype Settings = Settings(
    serverUrl: string,          // the collector's base URL, ending in '/'
    field: string,              // the entry field holding the message
    overwrite: Option<string>,  // the group that replaces the message, if set
    rules: seq<Rule>)           // each pattern paired with its static property, in order

  datatype ConfigError = MissingServerAddress

  const DefaultField := "@mt"

  function PatternKey(i: nat): string {
    "REGEX" + Decimal(i)
  }

  function PropertyKey(i: nat): string {
    "REGEX_PROPERTY" + Decimal(i)
  }

  lemma PatternKeyInjective(a: nat, b: nat)
    requires PatternKey(a) == PatternKey(b)
    ensures a == b
  {
    assert Decimal(a) == PatternKey(a)[5..] == PatternKey(b)[5..] == Decimal(b);
    DecimalInjective(a, b);
  }

  /** The keys `REGEX1` … `REGEXk`. */
  ghost function PatternKeys(k: nat): set<string> {
    set j | 1 <= j <= k :: PatternKey(j)
  }

  lemma {:induction false} PatternKeysSize(k: nat)
    ensures |PatternKeys(k)| == k
  {
    if k == 0 {
      assert PatternKeys(0) == {};
    } else {
      assert PatternKeys(k) == PatternKeys(k - 1) + {PatternKey(k)};
      if PatternKey(k) in PatternKeys(k - 1) {
        var j :| 1 <= j <= k - 1 && PatternKey(j) == PatternKey(k);
        PatternKeyInjective(j, k);
      }
      PatternKeysSize(k - 1);
    }
  }

  /** A run of present keys `REGEX1` … `REGEXk` is no longer than the
      environment, so counting up from 1 until a key is missing stops. */
  lemma RunBound(env: map<string, string>, k: nat)
    requires forall j :: 1 <= j <= k ==> PatternKey(j) in env
    ensures k <= |env|
  {
    PatternKeysSize(k);
    var keys := PatternKeys(k);
    assert keys <= env.Keys;
    assert |env.Keys - keys| + |keys| == |env.Keys|;
  }

  /** The rule of index `i`: pattern `REGEXi`, and `REGEX_PROPERTYi` split at
      its first '=' when present. */
  function RuleAt(env: map<string, string>, i: nat): Rule
    requires PatternKey(i) in env
  {
    Rule(env[PatternKey(i)],
         if PropertyKey(i) in env then Some(SplitOnce(env[PropertyKey(i)], '=')) else None)
  }

  /** The numbered branch from index `i` on: one rule per present key,
      stopping at the first missing index. */
  function NumberedFrom(env: map<string, string>, i: nat): (rules: seq<Rule>)
    requires i >= 1
    requires forall j :: 1 <= j < i ==> PatternKey(j) in env
    ensures forall j :: i <= j < i + |rules| ==> PatternKey(j) in env && rules[j - i] == RuleAt(env, j)
    ensures PatternKey(i + |rules|) !in env
    decreases |env| + 1 - i
  {
    RunBound(env, i - 1);
    if PatternKey(i) !in env then []
    else
      RunBound(env, i);
      [RuleAt(env, i)] + NumberedFrom(env, i + 1)
  }

  /** The single-pattern branch as evidently intended: `REGEX` with the
      property read from `REGEX_PROPERTY`. */
  function SingleRule(env: map<string, string>): Rule
    requires "REGEX" in env
  {
    Rule(env["REGEX"],
         if "REGEX_PROPERTY" in env then Some(SplitOnce(env["REGEX_PROPERTY"], '=')) else None)
  }

  /** The rule list built at start-up (single-pattern branch corrected). */
  function RuleList(env: map<string, string>): (rules: seq<Rule>)
    ensures "REGEX" in env ==> rules == [SingleRule(env)]
    ensures "REGEX" !in env ==>
      && (forall j :: 1 <= j <= |rules| ==> PatternKey(j) in env && rules[j - 1] == RuleAt(env, j))
      && PatternKey(|rules| + 1) !in env
  {
    if "REGEX" in env then [SingleRule(env)] else NumberedFrom(env, 1)
  }

  /** Numbered configuration: the patterns are exactly `REGEX1` … `REGEXn`
      for the first missing index n + 1, the property list runs parallel to
      them with `None` exactly where `REGEX_PROPERTYi` is absent, and each
      present property is split at its first '='. */
  lemma NumberedRules(env: map<string, string>)
    requires "REGEX" !in env
    ensures var rules := RuleList(env);
      && (forall k :: 1 <= k <= |rules| ==> PatternKey(k) in env)
      && PatternKey(|rules| + 1) !in env
      && (forall k :: 0 <= k < |rules| ==> rules[k].pattern == env[PatternKey(k + 1)])
      && (forall k :: 0 <= k < |rules| ==> (rules[k].property.None? <==> PropertyKey(k + 1) !in env))
      && (forall k :: 0 <= k < |rules| && rules[k].property.Some? ==>
            var p := rules[k].property.value;
            var raw := env[PropertyKey(k + 1)];
            (|p| == 2 <==> '=' in raw) && (|p| == 2 ==> '=' !in p[0] && p[0] + "=" + p[1] == raw))
  {
    var rules := RuleList(env);
    forall k | 0 <= k < |rules|
      ensures rules[k] == RuleAt(env, k + 1)
    {
      assert PatternKey(k + 1) in env;
    }
  }

  /** What the module-level code actually yields. */
  datatype RuleLoad =
    | Loaded(rules: seq<Rule>)
      // the branch calls `split` on the environment object itself:
      // AttributeError at import, the process never starts
    | EnvironHasNoSplit
      // the patterns are read but the property list is never bound, so
      // every entry that reaches the rule loop raises NameError
    | PropertiesUnbound(patterns: seq<string>)

  /** The rule-list code as written, including its single-pattern branch. */
  function RuleListAsWritten(env: map<string, string>): (r: RuleLoad)
    ensures r.Loaded? <==> "REGEX" !in env
    ensures r.Loaded? ==> r.rules == RuleList(env)
  {
    if "REGEX" in env then
      if "REGEX_PROPERTY" in env then EnvironHasNoSplit else PropertiesUnbound([env["REGEX"]])
    else Loaded(NumberedFrom(env, 1))
  }

  /** With `REGEX` set, the code as written fails for every environment:
      with `REGEX_PROPERTY` as well, it calls `split` on the environment
      object and the import fails; without it, the property list is never
      bound. The corrected branch yields the one rule `REGEX` names. */
  lemma SingleRegexBranch(env: map<string, string>)
    requires "REGEX" in env
    ensures RuleListAsWritten(env)
         == if "REGEX_PROPERTY" in env then EnvironHasNoSplit else PropertiesUnbound([env["REGEX"]])
    ensures RuleList(env) == [SingleRule(env)]
  {
  }

  /** An example of the single-pattern branch: `REGEX=x` with and without
      `REGEX_PROPERTY=k=v`. As written neither yields a rule list; the
      corrected branch yields the one rule, its property split at '='. */
  lemma SingleRegexBranchFails()
    ensures RuleListAsWritten(map["REGEX" := "x", "REGEX_PROPERTY" := "k=v"]) == EnvironHasNoSplit
    ensures RuleListAsWritten(map["REGEX" := "x"]) == PropertiesUnbound(["x"])
    ensures RuleList(map["REGEX" := "x", "REGEX_PROPERTY" := "k=v"]) == [Rule("x", Some(["k", "v"]))]
    ensures RuleList(map["REGEX" := "x"]) == [Rule("x", None)]
  {
    var env := map["REGEX" := "x", "REGEX_PROPERTY" := "k=v"];
    var p := SplitOnce("k=v", '=');
    assert '=' in "k=v" by { assert "k=v"[1] == '='; }
    assert p[0] + "=" + p[1] == "k=v";
    assert |p[0]| == 1;
    assert |p| == 2;
    assert p[0] == "k=v"[..1] == "k";
    assert p[1] == "k=v"[2..] == "v";
    assert p == ["k", "v"];
    assert SingleRule(env) == Rule("x", Some(p));
  }

  /** Base-URL normalisation: append '/' unless already there. */
  function NormalizeServerUrl(url: string): (r: string)
    ensures EndsWith(r, '/')
    ensures url <= r && |r| <= |url| + 1
    ensures r == url <==> EndsWith(url, '/')
  {
    if EndsWith(url, '/') then url else url + "/"
  }

  lemma NormalizeIdempotent(url: string)
    ensures NormalizeServerUrl(NormalizeServerUrl(url)) == NormalizeServerUrl(url)
  {
  }

  /** The module-level start-up: `SEQ_ADDRESS` is required, the message
      field defaults to `@mt`, `OVERWRITE_CONTENTS` is optional. */
  function LoadSettings(env: map<string, string>): (r: Result<Settings, ConfigError>)
    ensures r.Success? <==> "SEQ_ADDRESS" in env
    ensures r.Success? ==>
      && r.value.serverUrl == NormalizeServerUrl(env["SEQ_ADDRESS"])
      && r.value.field == (if "FIELD_TO_PARSE" in env then env["FIELD_TO_PARSE"] else DefaultField)
      && r.value.overwrite == (if "OVERWRITE_CONTENTS" in env then Some(env["OVERWRITE_CONTENTS"]) else None)
      && r.value.rules == RuleList(env)
  {
    if "SEQ_ADDRESS" !in env then Failure(MissingServerAddress)
    else
      Success(Settings(
        NormalizeServerUrl(env["SEQ_ADDRESS"]),
        Lookup(env, "FIELD_TO_PARSE").GetOr(DefaultField),
        Lookup(env, "OVERWRITE_CONTENTS"),
        RuleList(env)))
  }

  /** `if OVERWRITE_CONTENTS:` — set and non-empty. */
  predicate OverwriteEnabled(s: Settings) {
    s.overwrite.Some? && s.overwrite.value != ""
  }
}

=== FILE: ingest.dfy ===
/** The request handler `ingest` of seq_log_parser/ingest.py: choose the
    wire format, decode the batch, run the rule engine over every entry
    (passing through the ones it rejects with ValueError), re-encode the batch
    as newline-separated JSON and build the request to the collector.

    JSON is an oracle pair: `parse` is `json.loads` (`None` for a document it
    rejects) and `dump` is `json.dumps`. The POST itself is not performed: the
    handler's result is the request it would send, and the reply to the
    caller is `{}` whatever that request's fate. */
module Ingest {
  import opened Wrappers
  import opened Text
  import opened Json
  import opened Config
  import opened RuleEngine

  const ClefMediaType := "application/vnd.serilog.clef"
  const IngestPath := "api/events/raw"

  type Parser = string -> Option<Value>
  type Dumper = Value -> string

  /** The parts of the inbound HTTP request the handler reads. Header names
      are taken to be in their canonical spelling. */
  datatype Request = Request(args: map<string, string>, headers: map<string, string>, body: string)

  /** The request the handler sends to the collector. */
  datatype Post = Post(url: string, headers: map<string, string>, body: string)

  /** Why a request ends in an uncaught exception (an HTTP 500 or 400)
      instead of the `{}` acknowledgement. */
  datatype Crash =
    | BodyNotJson            // the enveloped body is not JSON
    | NoEventsList           // the body has no iterable `Events` member
    | EntryFailed(fault: Fault)
    | EntriesUnbound         // UnboundLocalError after a caught JSONDecodeError

  datatype Reply = Acknowledged(post: Post) | Crashed(crash: Crash)

  /** A decoding failure: a CLEF line `json.loads` rejects (the one error
      the handler catches), or one that escapes. */
  datatype DecodeError = MalformedLine(line: string) | Rejected(crash: Crash)

  /** The API key: the `X-Seq-ApiKey` header when it is non-empty, otherwise
      the `apiKey` query argument, which may be absent. An empty header
      counts as false in the handler's choice, so it gives way. */
  function ApiKey(header: Option<string>, query: Option<string>): (key: Option<string>)
    ensures key.Some? <==> (header.Some? && header.value != "") || query.Some?
    ensures header.Some? && header.value != "" ==> key == header
    ensures !(header.Some? && header.value != "") ==> key == query
  {
    if header.Some? && header.value != "" then header else query
  }

  function RequestApiKey(req: Request): Option<string> {
    ApiKey(Lookup(req.headers, "X-Seq-ApiKey"), Lookup(req.args, "apiKey"))
  }

  /** The headers of the request to the collector. */
  function OutboundHeaders(key: Option<string>): (h: map<string, string>)
    ensures h.Keys == {"Content-Type"} + (if key.Some? then {"X-Seq-ApiKey"} else {})
    ensures h["Content-Type"] == ClefMediaType
    ensures key.Some? ==> h["X-Seq-ApiKey"] == key.value
  {
    var base := map["Content-Type" := ClefMediaType];
    if key.Some? then base["X-Seq-ApiKey" := key.value] else base
  }

  /** Newline-delimited decoding is chosen by a `clef` query argument or a
      CLEF Content-Type. */
  predicate IsClef(req: Request) {
    || "clef" in req.args
    || StartsWith(Lookup(req.headers, "Content-Type").GetOr(""), ClefMediaType)
  }

  /** The format choice: a request is read as CLEF exactly when it has a
      `clef` argument or a Content-Type header that starts with the CLEF
      media type (parameters such as a charset may follow it); a request
      with neither is read as a JSON envelope. */
  lemma ClefDetection(req: Request)
    ensures IsClef(req) <==>
      || "clef" in req.args
      || ("Content-Type" in req.headers && ClefMediaType <= req.headers["Content-Type"])
    ensures "Content-Type" in req.headers && req.headers["Content-Type"] == ClefMediaType + "; charset=utf-8" ==>
      IsClef(req)
  {
    if "Content-Type" !in req.headers {
      assert !StartsWith("", ClefMediaType);
    }
  }

  /** Every line stripped of surrounding whitespace, dropping the lines
      that were all whitespace. */
  function KeepNonblank(lines: seq<string>): (kept: seq<string>)
    ensures |kept| <= |lines|
    ensures forall i :: 0 <= i < |kept| ==> kept[i] != "" && Trimmed(kept[i])
  {
    if |lines| == 0 then []
    else
      var t := Strip(lines[0]);
      var rest := KeepNonblank(lines[1..]);
      if t == "" then rest
      else
        assert Trimmed(t);
        [t] + rest
  }

  /** One line is kept, stripped, exactly when it is not all whitespace.
      With `KeepNonblankAppend` this determines the filter on every list. */
  lemma KeepNonblankOne(line: string)
    ensures KeepNonblank([line]) == if Strip(line) == "" then [] else [Strip(line)]
  {
    assert [line][1..] == [];
  }

  /** Filtering respects concatenation, so the kept lines keep their order
      and a blank line contributes nothing wherever it stands. */
  lemma {:induction false} KeepNonblankAppend(a: seq<string>, b: seq<string>)
    ensures KeepNonblank(a + b) == KeepNonblank(a) + KeepNonblank(b)
    decreases |a|
  {
    if |a| > 0 {
      assert (a + b)[1..] == a[1..] + b;
      KeepNonblankAppend(a[1..], b);
    } else {
      assert a + b == b;
    }
  }

  /** Lines that strip() leaves non-empty and unchanged are all kept, in
      order. */
  lemma {:induction false} KeepNonblankOfFixed(lines: seq<string>)
    requires forall i :: 0 <= i < |lines| ==> Strip(lines[i]) == lines[i] != ""
    ensures KeepNonblank(lines) == lines
    decreases |lines|
  {
    if |lines| > 0 {
      KeepNonblankOfFixed(lines[1..]);
      assert [lines[0]] + lines[1..] == lines;
    }
  }

  /** Lines that are already non-blank and stripped are all kept, unchanged. */
  lemma KeepNonblankOfTrimmed(lines: seq<string>)
    requires forall i :: 0 <= i < |lines| ==> lines[i] != "" && Trimmed(lines[i])
    ensures KeepNonblank(lines) == lines
  {
    forall i | 0 <= i < |lines| ensures Strip(lines[i]) == lines[i] {
      StripTrimmed(lines[i]);
    }
    KeepNonblankOfFixed(lines);
  }

  /** The non-blank, stripped lines of a CLEF body, in order. */
  function ClefLines(body: string): (lines: seq<string>)
    ensures forall i :: 0 <= i < |lines| ==> lines[i] != "" && Trimmed(lines[i])
  {
    KeepNonblank(Split(body, '\n'))
  }

  /** A body made of newline-free lines has as its CLEF lines exactly the
      filtered lines: the line split undoes the join. */
  lemma ClefLinesOfLines(lines: seq<string>)
    requires |lines| >= 1
    requires forall i :: 0 <= i < |lines| ==> '\n' !in lines[i]
    ensures ClefLines(Join(lines, '\n')) == KeepNonblank(lines)
  {
    SplitJoin(lines, '\n');
  }

  /** `json.loads` over each line in order; the first line it rejects is the
      error. */
  function ParseLines(lines: seq<string>, parse: Parser): (r: Result<seq<Value>, string>)
    ensures r.Success? <==> forall i :: 0 <= i < |lines| ==> parse(lines[i]).Some?
    ensures r.Success? ==> |r.value| == |lines| && forall i :: 0 <= i < |lines| ==> parse(lines[i]) == Some(r.value[i])
    ensures r.Failure? ==> r.error in lines && parse(r.error).None?
  {
    if |lines| == 0 then Success([])
    else match parse(lines[0])
      case None => Failure(lines[0])
      case Some(v) =>
        match ParseLines(lines[1..], parse)
        case Failure(bad) => Failure(bad)
        case Success(rest) => Success([v] + rest)
  }

  /** The CLEF format: one entry per non-blank line, in line order. */
  function DecodeClef(body: string, parse: Parser): (r: Result<seq<Value>, DecodeError>)
    ensures r.Success? ==>
      var lines := ClefLines(body);
      && |r.value| == |lines|
      && forall i :: 0 <= i < |lines| ==> parse(lines[i]) == Some(r.value[i])
    ensures r.Success? <==> forall i :: 0 <= i < |ClefLines(body)| ==> parse(ClefLines(body)[i]).Some?
    ensures r.Failure? ==>
      && r.error.MalformedLine? && r.error.line in ClefLines(body)
      && parse(r.error.line).None?
  {
    match ParseLines(ClefLines(body), parse)
    case Failure(line) => Failure(MalformedLine(line))
    case Success(entries) => Success(entries)
  }

  /** What iterating over the `Events` member yields: the items of a list,
      the characters of a string, the keys of an object (every one of them a
      string, which `transform_entry` rejects). */
  function EventsAsEntries(events: Value): (r: Result<seq<Value>, Crash>)
    ensures events.Arr? ==> r == Success(events.items)
    ensures events.Str? ==>
      && r.Success? && |r.value| == |events.s|
      && forall i :: 0 <= i < |events.s| ==> r.value[i] == Str([events.s[i]])
    ensures events.Obj? ==> r == if events.fields == map[] then Success([]) else Failure(EntryFailed(NotAnObject))
    ensures r.Success? <==> events.Arr? || events.Str? || events == Obj(map[])
    ensures r.Failure? && !events.Obj? ==> r.error == NoEventsList
  {
    match events
    case Arr(items) => Success(items)
    case Str(text) => Success(seq(|text|, i requires 0 <= i < |text| => Str([text[i]])))
    case Obj(fields) => if fields == map[] then Success([]) else Failure(EntryFailed(NotAnObject))
    case _ => Failure(NoEventsList)
  }

  /** The enveloped format: a JSON object whose `Events` member holds the
      entries. */
  function DecodeEnvelope(body: string, parse: Parser): (r: Result<seq<Value>, DecodeError>)
    ensures r.Failure? ==> r.error.Rejected?
    ensures parse(body).None? ==> r == Failure(Rejected(BodyNotJson))
    ensures parse(body).Some? && !(parse(body).value.Obj? && "Events" in parse(body).value.fields) ==>
      r == Failure(Rejected(NoEventsList))
    ensures parse(body).Some? && parse(body).value.Obj? && "Events" in parse(body).value.fields ==>
      var events := EventsAsEntries(parse(body).value.fields["Events"]);
      && (r.Success? <==> events.Success?)
      && (r.Success? ==> r.value == events.value)
      && (r.Failure? ==> r.error == Rejected(events.error))
  {
    match parse(body)
    case None => Failure(Rejected(BodyNotJson))
    case Some(data) =>
      if data.Obj? && "Events" in data.fields then
        match EventsAsEntries(data.fields["Events"])
        case Failure(c) => Failure(Rejected(c))
        case Success(entries) => Success(entries)
      else Failure(Rejected(NoEventsList))
  }

  /** The format is chosen by `IsClef`; only the CLEF path
      can end in the caught JSONDecodeError. */
  function DecodeRequest(req: Request, parse: Parser): (r: Result<seq<Value>, DecodeError>)
    ensures r.Failure? && r.error.MalformedLine? ==> IsClef(req)
    ensures IsClef(req) ==>
      (r.Success? <==> forall i :: 0 <= i < |ClefLines(req.body)| ==> parse(ClefLines(req.body)[i]).Some?)
    ensures IsClef(req) && r.Failure? ==> r.error.MalformedLine? && parse(r.error.line).None?
    ensures !IsClef(req) ==>
      (r.Success? <==>
         && parse(req.body).Some? && parse(req.body).value.Obj?
         && "Events" in parse(req.body).value.fields
         && EventsAsEntries(parse(req.body).value.fields["Events"]).Success?)
    ensures IsClef(req) && r.Success? ==>
      var lines := ClefLines(req.body);
      && |r.value| == |lines|
      && forall i :: 0 <= i < |lines| ==> parse(lines[i]) == Some(r.value[i])
    ensures !IsClef(req) && r.Success? ==>
      && parse(req.body).Some? && parse(req.body).value.Obj?
      && "Events" in parse(req.body).value.fields
      && EventsAsEntries(parse(req.body).value.fields["Events"]) == Success(r.value)
    ensures !IsClef(req) && r.Failure? ==>
      r.error.Rejected? && (parse(req.body).None? ==> r.error.crash == BodyNotJson)
  {
    if IsClef(req) then DecodeClef(req.body, parse) else DecodeEnvelope(req.body, parse)
  }

  /** What the batch keeps for an entry whose transformation
      returned or raised ValueError. The entry is changed in place, so a
      property-unpacking failure forwards the partly rewritten entry. */
  function Emit(o: Outcome, original: Value): Value
    requires !o.Failed?
  {
    match o
    case Transformed(e) => Obj(e)
    case BadProperty(e) => Obj(e)
    case NoMatch => original
  }

  /** The transform loop. It fails at the first entry whose
      transformation raises something other than ValueError; otherwise it
      keeps one entry per input, in order. */
  function ProcessBatch(s: Settings, matcher: Matcher, entries: seq<Value>): (r: Result<seq<Value>, Fault>)
    ensures r.Success? <==> forall i :: 0 <= i < |entries| ==> !Transform(s, matcher, entries[i]).Failed?
    ensures r.Success? ==>
      && |r.value| == |entries|
      && forall i :: 0 <= i < |entries| ==> r.value[i] == Emit(Transform(s, matcher, entries[i]), entries[i])
    ensures r.Failure? ==> exists i :: 0 <= i < |entries| && Transform(s, matcher, entries[i]) == Failed(r.error)
  {
    if |entries| == 0 then Success([])
    else
      var o := Transform(s, matcher, entries[0]);
      if o.Failed? then Failure(o.fault)
      else
        match ProcessBatch(s, matcher, entries[1..])
        case Failure(f) =>
          ghost var i :| 0 <= i < |entries| - 1 && Transform(s, matcher, entries[1..][i]) == Failed(f);
          assert Transform(s, matcher, entries[i + 1]) == Failed(f);
          Failure(f)
        case Success(rest) => Success([Emit(o, entries[0])] + rest)
  }

  /** Every kept entry is the input itself when no rule matched it, and the
      transformed entry otherwise; the batch keeps length and order. */
  lemma PassThrough(s: Settings, matcher: Matcher, entries: seq<Value>, i: nat)
    requires ProcessBatch(s, matcher, entries).Success?
    requires i < |entries|
    ensures var out := ProcessBatch(s, matcher, entries).value;
      && |out| == |entries|
      && (Transform(s, matcher, entries[i]) == NoMatch ==> out[i] == entries[i])
      && (Transform(s, matcher, entries[i]).Transformed? ==> out[i] == Obj(Transform(s, matcher, entries[i]).entry))
  {
  }

  /** The outbound body: one serialised entry per line. An empty batch is the
      empty body; when no serialised entry contains a newline, splitting the
      body at newlines recovers exactly one line per entry. */
  function Encode(entries: seq<Value>, dump: Dumper): (body: string)
    ensures |entries| == 0 ==> body == ""
    ensures |entries| >= 1 && (forall i :: 0 <= i < |entries| ==> '\n' !in dump(entries[i])) ==>
      Split(body, '\n') == Dumps(entries, dump)
  {
    var lines := Dumps(entries, dump);
    assert |lines| >= 1 && (forall i :: 0 <= i < |lines| ==> '\n' !in lines[i]) ==>
      Split(Join(lines, '\n'), '\n') == lines
    by {
      if |lines| >= 1 && (forall i :: 0 <= i < |lines| ==> '\n' !in lines[i]) {
        SplitJoin(lines, '\n');
      }
    }
    Join(lines, '\n')
  }

  /** `json.dumps` of each entry, in order. */
  function Dumps(entries: seq<Value>, dump: Dumper): (lines: seq<string>)
    ensures |lines| == |entries|
    ensures forall i :: 0 <= i < |entries| ==> lines[i] == dump(entries[i])
  {
    seq(|entries|, i requires 0 <= i < |entries| => dump(entries[i]))
  }

  /** `json.dumps` writes one non-blank, unpadded line that `json.loads`
      reads back to the same value. */
  ghost predicate LineCodec(parse: Parser, dump: Dumper) {
    forall v :: '\n' !in dump(v) && dump(v) != "" && Trimmed(dump(v)) && parse(dump(v)) == Some(v)
  }

  /** Decoding the encoded batch as CLEF gives back the batch. */
  lemma ClefRoundTrip(entries: seq<Value>, parse: Parser, dump: Dumper)
    requires LineCodec(parse, dump)
    ensures DecodeClef(Encode(entries, dump), parse) == Success(entries)
  {
    var lines := Dumps(entries, dump);
    if |entries| == 0 {
      assert Split("", '\n') == [""];
      assert ClefLines("") == [];
    } else {
      KeepNonblankOfTrimmed(lines);
    }
    assert ClefLines(Encode(entries, dump)) == lines;
    var r := ParseLines(lines, parse);
    assert r.Success?;
    assert r.value == entries;
  }

  /** Decoding an envelope that `json.dumps` wrote around a batch gives back
      the batch, and a non-CLEF request with that body decodes to it. */
  lemma EnvelopeRoundTrip(entries: seq<Value>, parse: Parser, dump: Dumper, req: Request)
    requires LineCodec(parse, dump)
    requires !IsClef(req) && req.body == dump(Obj(map["Events" := Arr(entries)]))
    ensures DecodeEnvelope(req.body, parse) == Success(entries)
    ensures DecodeRequest(req, parse) == Success(entries)
  {
    var envelope := Obj(map["Events" := Arr(entries)]);
    assert parse(dump(envelope)) == Some(envelope);
  }

  /** After decoding: transform the batch and build the request to the
      collector. The request is built exactly when no entry raises an
      uncaught error; it goes to the base URL plus `api/events/raw`, with
      the CLEF headers and the processed batch as its body. Otherwise the
      handler fails with the fault of some entry of the batch. */
  function Dispatch(s: Settings, matcher: Matcher, dump: Dumper, key: Option<string>, entries: seq<Value>): (reply: Reply)
    ensures reply.Acknowledged? <==> forall i :: 0 <= i < |entries| ==> !Transform(s, matcher, entries[i]).Failed?
    ensures reply.Acknowledged? ==>
      && reply.post.url == s.serverUrl + IngestPath
      && reply.post.headers == OutboundHeaders(key)
      && reply.post.body == Encode(ProcessBatch(s, matcher, entries).value, dump)
    ensures reply.Crashed? ==>
      && reply.crash.EntryFailed?
      && exists i :: 0 <= i < |entries| && Transform(s, matcher, entries[i]) == Failed(reply.crash.fault)
  {
    match ProcessBatch(s, matcher, entries)
    case Failure(f) => Crashed(EntryFailed(f))
    case Success(out) => Acknowledged(Post(s.serverUrl + IngestPath, OutboundHeaders(key), Encode(out, dump)))
  }

  /** The handler as written: a CLEF line `json.loads` rejects is caught,
      but `entries` is then never assigned and the loop raises. */
  function HandleAsWritten(s: Settings, matcher: Matcher, parse: Parser, dump: Dumper, req: Request): (reply: Reply)
    ensures DecodeRequest(req, parse).Failure? && DecodeRequest(req, parse).error.MalformedLine? ==>
      reply == Crashed(EntriesUnbound)
    ensures !(DecodeRequest(req, parse).Failure? && DecodeRequest(req, parse).error.MalformedLine?) ==>
      reply == Handle(s, matcher, parse, dump, req)
  {
    match DecodeRequest(req, parse)
    case Failure(MalformedLine(_)) => Crashed(EntriesUnbound)
    case Failure(Rejected(c)) => Crashed(c)
    case Success(entries) => Dispatch(s, matcher, dump, RequestApiKey(req), entries)
  }

  /** The handler with a defined fallback: an undecodable CLEF body is an
      empty batch, and the request is still acknowledged. */
  function Handle(s: Settings, matcher: Matcher, parse: Parser, dump: Dumper, req: Request): (reply: Reply)
    ensures reply.Crashed? ==> !reply.crash.EntriesUnbound?
    ensures reply.Acknowledged? ==> reply.post.url == s.serverUrl + IngestPath
    ensures DecodeRequest(req, parse).Success? ==>
      var entries := DecodeRequest(req, parse).value;
      (reply.Acknowledged? <==> forall i :: 0 <= i < |entries| ==> !Transform(s, matcher, entries[i]).Failed?)
    ensures DecodeRequest(req, parse).Failure? && DecodeRequest(req, parse).error.Rejected? ==>
      reply == Crashed(DecodeRequest(req, parse).error.crash)
  {
    match DecodeRequest(req, parse)
    case Failure(MalformedLine(_)) => Dispatch(s, matcher, dump, RequestApiKey(req), [])
    case Failure(Rejected(c)) => Crashed(c)
    case Success(entries) => Dispatch(s, matcher, dump, RequestApiKey(req), entries)
  }

  /** A malformed CLEF line crashes the handler as written, while the
      corrected handler forwards an empty batch and acknowledges. */
  lemma MalformedClefLine(s: Settings, matcher: Matcher, parse: Parser, dump: Dumper, req: Request)
    requires IsClef(req)
    requires DecodeClef(req.body, parse).Failure?
    ensures HandleAsWritten(s, matcher, parse, dump, req) == Crashed(EntriesUnbound)
    ensures Handle(s, matcher, parse, dump, req)
         == Acknowledged(Post(s.serverUrl + IngestPath, OutboundHeaders(RequestApiKey(req)), ""))
  {
    assert ProcessBatch(s, matcher, []) == Success([]);
  }

  /** The outbound request always carries the CLEF
      Content-Type; it carries `X-Seq-ApiKey` exactly when a non-empty header
      key or an `apiKey` query argument was supplied, and the header key
      wins over the query argument. */
  lemma ApiKeyForwarded(s: Settings, matcher: Matcher, parse: Parser, dump: Dumper, req: Request)
    requires Handle(s, matcher, parse, dump, req).Acknowledged?
    ensures var h := Handle(s, matcher, parse, dump, req).post.headers;
      var header := Lookup(req.headers, "X-Seq-ApiKey");
      && "Content-Type" in h && h["Content-Type"] == ClefMediaType
      && ("X-Seq-ApiKey" in h <==> (header.Some? && header.value != "") || "apiKey" in req.args)
      && (header.Some? && header.value != "" ==> h["X-Seq-ApiKey"] == header.value)
      && (!(header.Some? && header.value != "") && "apiKey" in req.args ==> h["X-Seq-ApiKey"] == req.args["apiKey"])
      && h.Keys <= {"Content-Type", "X-Seq-ApiKey"}
  {
  }

  /** A batch no rule matches comes out of the transform loop unchanged. */
  lemma UnmatchedBatchKept(s: Settings, matcher: Matcher, entries: seq<Value>)
    requires forall i :: 0 <= i < |entries| ==> Transform(s, matcher, entries[i]) == NoMatch
    ensures ProcessBatch(s, matcher, entries) == Success(entries)
  {
    var out := ProcessBatch(s, matcher, entries);
    assert out.Success?;
    forall i | 0 <= i < |entries| ensures out.value[i] == entries[i] {
      assert Transform(s, matcher, entries[i]) == NoMatch;
    }
    assert |out.value| == |entries|;
    assert out.value == entries;
  }

  /** A request whose body decodes is answered by transforming and posting
      the decoded batch. */
  lemma HandleDecoded(s: Settings, matcher: Matcher, parse: Parser, dump: Dumper, req: Request, entries: seq<Value>)
    requires DecodeRequest(req, parse) == Success(entries)
    requires ProcessBatch(s, matcher, entries).Success?
    ensures Handle(s, matcher, parse, dump, req)
         == Acknowledged(Post(s.serverUrl + IngestPath, OutboundHeaders(RequestApiKey(req)),
                              Encode(ProcessBatch(s, matcher, entries).value, dump)))
  {
  }

  /** A CLEF batch no rule matches is forwarded as the same entries: the
      outbound body decodes to exactly what the inbound body decoded to. */
  lemma UnmatchedBatchRoundTrip(s: Settings, matcher: Matcher, parse: Parser, dump: Dumper, req: Request)
    requires LineCodec(parse, dump)
    requires IsClef(req) && DecodeClef(req.body, parse).Success?
    requires var entries := DecodeClef(req.body, parse).value;
      forall i :: 0 <= i < |entries| ==> Transform(s, matcher, entries[i]) == NoMatch
    ensures Handle(s, matcher, parse, dump, req).Acknowledged?
    ensures DecodeClef(Handle(s, matcher, parse, dump, req).post.body, parse) == DecodeClef(req.body, parse)
  {
    var entries := DecodeClef(req.body, parse).value;
    UnmatchedBatchKept(s, matcher, entries);
    HandleDecoded(s, matcher, parse, dump, req, entries);
    ClefRoundTrip(entries, parse, dump);
  }

  /** The handler posts even an empty batch: a CLEF body of blank lines is
      forwarded as an empty body. */
  lemma EmptyBatchStillPosted(s: Settings, matcher: Matcher, parse: Parser, dump: Dumper, req: Request)
    requires IsClef(req)
    requires forall i :: 0 <= i < |req.body| ==> IsSpace(req.body[i])
    ensures Handle(s, matcher, parse, dump, req)
         == Acknowledged(Post(s.serverUrl + IngestPath, OutboundHeaders(RequestApiKey(req)), ""))
  {
    var lines := Split(req.body, '\n');
    forall i | 0 <= i < |lines| ensures Strip(lines[i]) == "" {
      BlankPart(req.body, lines, i);
    }
    AllBlankKeepsNothing(lines);
  }

  /** A part of a split all-whitespace string is all whitespace. */
  lemma BlankPart(body: string, lines: seq<string>, i: nat)
    requires forall k :: 0 <= k < |body| ==> IsSpace(body[k])
    requires lines == Split(body, '\n') && i < |lines|
    ensures Strip(lines[i]) == ""
  {
    JoinParts(lines, '\n', i);
    forall k | 0 <= k < |lines[i]| ensures IsSpace(lines[i][k]) {
      assert lines[i][k] in body;
    }
  }

  /** Every character of a part occurs in the join. */
  lemma {:induction false} JoinParts(parts: seq<string>, sep: char, i: nat)
    requires i < |parts|
    ensures forall c :: c in parts[i] ==> c in Join(parts, sep)
    decreases |parts|
  {
    if |parts| > 1 {
      if i > 0 {
        JoinParts(parts[1..], sep, i - 1);
      }
    }
  }

  lemma {:induction false} AllBlankKeepsNothing(lines: seq<string>)
    requires forall i :: 0 <= i < |lines| ==> Strip(lines[i]) == ""
    ensures KeepNonblank(lines) == []
    decreases |lines|
  {
    if |lines| > 0 {
      AllBlankKeepsNothing(lines[1..]);
    }
  }
}

=== FILE: json.dfy ===
/** The JSON values a log entry is made of. An entry is a JSON object: a map
    from field name to value. */
module Json {

  datatype Value =
    | Null
    | Bool(b: bool)
    | Num(n: int)
    | Str(s: string)
    | Arr(items: seq<Value>)
    | Obj(fields: map<string, Value>)

  /** The fields of one log entry (a decoded JSON object). */
  type Entry = map<string, Value>
}

=== FILE: rule_engine.dfy ===
/** The rule engine: `transform_entry` in seq_log_parser/ingest.py. The
    first rule, in list order, whose pattern matches the message field
    copies the match's named groups into `Properties`, writes its static
    property, and optionally replaces the message field with one group.

    Python's `re` is an oracle here: `matcher(pattern, text)` is what
    `re.compile(pattern).match(text)` yields, as its `groupdict()`, or `None`
    when the pattern does not match at the start of `text`. */
module RuleEngine {
  import opened Wrappers
  import opened Json
  import opened Config

  /** `match.groupdict()`: every named group of the pattern, `None` for a
      group that took no part in the match. */
  type Groups = map<string, Option<string>>

  type Matcher = (string, string) -> Option<Groups>

  /** The first matching rule's position and its named groups. */
  datatype Hit = Hit(index: nat, groups: Groups)

  /** The exceptions `transform_entry` raises that the batch loop does not
      catch (only `ValueError` is caught there): each one fails the request. */
  datatype Fault =
    | NotAnObject          // TypeError: the entry is not a JSON object
    | MissingMessageField  // KeyError: the entry lacks the message field
    | MessageNotString     // TypeError: `regex.match` on a non-string
    | PropertiesNotObject  // TypeError: item assignment into a non-dict `Properties`
    | NoSuchGroup(name: string)  // IndexError: the pattern has no group of that name

  /** How one `transform_entry` call ends. */
  datatype Outcome =
      // returned normally with the rewritten entry
    | Transformed(entry: Entry)
      // ValueError('No regex would match ...'), raised before any change
    | NoMatch
      // ValueError from unpacking a property that has no '=': raised after
      // the named groups were already written into the entry in place
    | BadProperty(entry: Entry)
    | Failed(fault: Fault)

  /** How the store stage of a matched rule ends. */
  datatype StoreStep =
      // the properties were written; the overwrite stage follows
    | Stored(entry: Entry)
      // the static property has no '=': the ValueError of its unpacking,
      // raised after the named groups were written into the entry in place
    | Unsplit(entry: Entry)
      // an exception the batch loop does not catch
    | StoreFailed(fault: Fault)

  /** First-match search in rule order. */
  function FirstMatch(rules: seq<Rule>, message: string, matcher: Matcher): (r: Option<Hit>)
    ensures r.Some? ==>
      && r.value.index < |rules|
      && matcher(rules[r.value.index].pattern, message) == Some(r.value.groups)
      && forall j :: 0 <= j < r.value.index ==> matcher(rules[j].pattern, message).None?
    ensures r.None? ==> forall j :: 0 <= j < |rules| ==> matcher(rules[j].pattern, message).None?
  {
    if |rules| == 0 then None
    else match matcher(rules[0].pattern, message)
      case Some(groups) => Some(Hit(0, groups))
      case None =>
        match FirstMatch(rules[1..], message, matcher)
        case None => None
        case Some(h) => Some(Hit(h.index + 1, h.groups))
  }

  /** Rules after the first matching one are never consulted: any rules may
      follow it without changing the search's result. */
  lemma FirstMatchIgnoresLater(rules: seq<Rule>, message: string, matcher: Matcher, later: seq<Rule>)
    requires FirstMatch(rules, message, matcher).Some?
    ensures var h := FirstMatch(rules, message, matcher).value;
      FirstMatch(rules[..h.index + 1] + later, message, matcher) == Some(h)
  {
    var h := FirstMatch(rules, message, matcher).value;
    var rules' := rules[..h.index + 1] + later;
    assert forall j :: 0 <= j <= h.index ==> rules'[j] == rules[j];
  }

  /** A group's value as JSON: its text, or `null` when it did not take part. */
  function GroupValue(g: Option<string>): Value {
    match g
    case Some(text) => Str(text)
    case None => Null
  }

  function GroupValues(groups: Groups): (values: map<string, Value>)
    ensures values.Keys == groups.Keys
    ensures forall k :: k in groups ==> values[k] == GroupValue(groups[k])
  {
    map k | k in groups :: GroupValue(groups[k])
  }

  /** Item assignment of every pair of `values` into the entry's
      `Properties`, in place; an empty `values` assigns nothing and so
      cannot fail. */
  function WriteProperties(e: Entry, values: map<string, Value>): (r: Result<Entry, Fault>)
    requires "Properties" in e
    ensures r.Success? <==> values == map[] || e["Properties"].Obj?
    ensures r.Success? ==> r.value.Keys == e.Keys
    ensures r.Success? ==> forall k :: k in e && k != "Properties" ==> r.value[k] == e[k]
    ensures r.Success? && e["Properties"].Obj? ==>
      && r.value["Properties"].Obj?
      && var before := e["Properties"].fields;
         var after := r.value["Properties"].fields;
         && after.Keys == before.Keys + values.Keys
         && (forall k :: k in values ==> after[k] == values[k])
         && (forall k :: k in before && k !in values ==> after[k] == before[k])
    ensures r.Success? && !e["Properties"].Obj? ==> r.value == e
  {
    if values == map[] then Success(e)
    else if e["Properties"].Obj? then Success(e["Properties" := Obj(e["Properties"].fields + values)])
    else Failure(PropertiesNotObject)
  }

  /** With `OVERWRITE_CONTENTS` set, the message field, and
      `MessageTemplate` when the entry has one, become the named group;
      a name the pattern lacks raises IndexError. */
  function Overwrite(s: Settings, e: Entry, groups: Groups): (o: Outcome)
    ensures o.Transformed? || (OverwriteEnabled(s) && o == Failed(NoSuchGroup(s.overwrite.value)))
    ensures o.Transformed? <==> !OverwriteEnabled(s) || s.overwrite.value in groups
    ensures o.Transformed? && !OverwriteEnabled(s) ==> o.entry == e
    ensures o.Transformed? && OverwriteEnabled(s) ==>
      && var v := GroupValue(groups[s.overwrite.value]);
         && o.entry.Keys == e.Keys + {s.field}
         && o.entry[s.field] == v
         && ("MessageTemplate" in e ==> o.entry["MessageTemplate"] == v)
         && (forall k :: k in e && k != s.field && k != "MessageTemplate" ==> o.entry[k] == e[k])
  {
    if OverwriteEnabled(s) then
      var name := s.overwrite.value;
      if name !in groups then Failed(NoSuchGroup(name))
      else
        var v := GroupValue(groups[name]);
        var e' := if "MessageTemplate" in e then e["MessageTemplate" := v] else e;
        Transformed(e'[s.field := v])
    else Transformed(e)
  }

  /** Create `Properties` if absent, then copy the named groups
      into it; only a non-object `Properties` with at least one group to
      write fails. */
  function StoreGroups(e: Entry, groups: Groups): (r: Result<Entry, Fault>)
    ensures r.Success? <==> groups == map[] || "Properties" !in e || e["Properties"].Obj?
    ensures r.Failure? ==> r.error == PropertiesNotObject
    ensures r.Success? ==>
      && r.value.Keys == e.Keys + {"Properties"}
      && forall k :: k in e && k != "Properties" ==> r.value[k] == e[k]
    ensures r.Success? && ("Properties" !in e || e["Properties"].Obj?) ==>
      && "Properties" in r.value
      && r.value["Properties"].Obj?
      && var before := if "Properties" in e then e["Properties"].fields else map[];
         var after := r.value["Properties"].fields;
         && after.Keys == before.Keys + groups.Keys
         && (forall g :: g in groups ==> after[g] == GroupValue(groups[g]))
         && (forall k :: k in before && k !in groups ==> after[k] == before[k])
    ensures r.Success? && "Properties" in e && !e["Properties"].Obj? ==> r.value == e
  {
    var e1 := if "Properties" in e then e else e["Properties" := Obj(map[])];
    WriteProperties(e1, GroupValues(groups))
  }

  /** Write the static property, if the rule has one, into the entry whose
      groups were stored. A property without '=' cannot be unpacked into a
      key and a value, and the entry stays as it was. */
  function StoreStatic(e: Entry, rule: Rule): (o: StoreStep)
    requires "Properties" in e
    ensures o.Unsplit? <==> rule.property.Some? && |rule.property.value| != 2
    ensures o.Unsplit? ==> o.entry == e
    ensures o.StoreFailed? ==> StaticKeys(rule) != {} && !e["Properties"].Obj? && o.fault == PropertiesNotObject
    ensures o.Stored? ==>
      && o.entry.Keys == e.Keys
      && (forall k :: k in e && k != "Properties" ==> o.entry[k] == e[k])
    ensures o.Stored? && StaticKeys(rule) == {} ==> o.entry == e
    ensures o.Stored? && StaticKeys(rule) != {} ==>
      var p := rule.property.value;
      && e["Properties"].Obj?
      && o.entry["Properties"].Obj?
      && o.entry["Properties"].fields == e["Properties"].fields[p[0] := Str(p[1])]
  {
    if rule.property.None? then Stored(e)
    else
      var p := rule.property.value;
      if |p| != 2 then Unsplit(e)
      else
        var single := map[p[0] := Str(p[1])];
        assert p[0] in single;
        match WriteProperties(e, single)
        case Failure(f) => StoreFailed(f)
        case Success(e3) =>
          assert e3["Properties"].fields == e["Properties"].fields[p[0] := Str(p[1])];
          Stored(e3)
  }

  /** The store stage of a matched rule: store the named groups, then write
      the static property. Unpacking the property fails exactly when the
      groups could be stored and the rule's property has no '='. */
  function StoreMatch(e: Entry, rule: Rule, groups: Groups): (o: StoreStep)
    ensures o.Unsplit? <==>
      && (groups == map[] || "Properties" !in e || e["Properties"].Obj?)
      && rule.property.Some? && |rule.property.value| != 2
    ensures o.StoreFailed? <==>
      && "Properties" in e && !e["Properties"].Obj?
      && (groups != map[] || StaticKeys(rule) != {})
    ensures o.StoreFailed? ==> o.fault == PropertiesNotObject
  {
    match StoreGroups(e, groups)
    case Failure(f) => StoreFailed(f)
    case Success(e2) => StoreStatic(e2, rule)
  }

  /** Storing touches nothing at the top level but `Properties`, which it
      creates when absent. */
  lemma StoreMatchFrame(e: Entry, rule: Rule, groups: Groups)
    ensures var o := StoreMatch(e, rule, groups);
      o.Stored? || o.Unsplit? ==>
        && o.entry.Keys == e.Keys + {"Properties"}
        && forall k :: k in e && k != "Properties" ==> o.entry[k] == e[k]
  {
  }

  /** When `Properties` was absent or an object, every named group lands in
      it unless the static key overrides it, keys no group names are kept,
      and nothing but the groups and the static key is added. */
  lemma StoreMatchProperties(e: Entry, rule: Rule, groups: Groups)
    requires "Properties" !in e || e["Properties"].Obj?
    ensures var o := StoreMatch(e, rule, groups);
      o.Stored? ==>
        && "Properties" in o.entry
        && o.entry["Properties"].Obj?
        && var before := if "Properties" in e then e["Properties"].fields else map[];
           var props := o.entry["Properties"].fields;
           && props.Keys == before.Keys + groups.Keys + StaticKeys(rule)
           && (forall g :: g in groups && g !in StaticKeys(rule) ==> props[g] == GroupValue(groups[g]))
           && (forall k :: k in before && k !in groups && k !in StaticKeys(rule) ==> props[k] == before[k])
  {
  }

  /** The static property is written last, so its value is what `Properties`
      holds under its key. */
  lemma StoreMatchStatic(e: Entry, rule: Rule, groups: Groups)
    requires rule.property.Some? && |rule.property.value| == 2
    ensures var o := StoreMatch(e, rule, groups);
      var p := rule.property.value;
      o.Stored? ==>
        && "Properties" in o.entry
        && o.entry["Properties"].Obj?
        && p[0] in o.entry["Properties"].fields
        && o.entry["Properties"].fields[p[0]] == Str(p[1])
  {
  }

  /** The effects of the one matching rule: the store stage, then the
      overwrite stage on the stored entry. */
  function ApplyRule(s: Settings, e: Entry, rule: Rule, groups: Groups): (o: Outcome)
    ensures !o.NoMatch?
    ensures o.BadProperty? <==> StoreMatch(e, rule, groups).Unsplit?
    ensures o.BadProperty? ==> o.entry == StoreMatch(e, rule, groups).entry
    ensures o.Failed? ==>
      || o.fault == PropertiesNotObject
      || (OverwriteEnabled(s) && o.fault == NoSuchGroup(s.overwrite.value))
    ensures o.Transformed? <==>
      StoreMatch(e, rule, groups).Stored? && (!OverwriteEnabled(s) || s.overwrite.value in groups)
  {
    match StoreMatch(e, rule, groups)
    case Stored(stored) => Overwrite(s, stored, groups)
    case Unsplit(partial) => BadProperty(partial)
    case StoreFailed(f) => Failed(f)
  }

  /** `transform_entry`: a non-object entry, a missing message field and a
      non-string message each raise before any rule is tried; an entry is
      rewritten only when some rule matches its message; and the only other
      uncaught errors are the store stage's and the overwrite stage's. A
      match is rewritten exactly when its groups and static property are
      stored and the overwrite group, if enabled, exists. */
  function Transform(s: Settings, matcher: Matcher, entry: Value): (o: Outcome)
    ensures !entry.Obj? ==> o == Failed(NotAnObject)
    ensures entry.Obj? && s.field !in entry.fields ==> o == Failed(MissingMessageField)
    ensures o == Failed(MessageNotString) <==>
      entry.Obj? && s.field in entry.fields && |s.rules| > 0 && !entry.fields[s.field].Str?
    ensures o.Transformed? || o.BadProperty? ==>
      && entry.Obj? && s.field in entry.fields && entry.fields[s.field].Str?
      && FirstMatch(s.rules, entry.fields[s.field].s, matcher).Some?
    ensures
      && entry.Obj? && s.field in entry.fields && entry.fields[s.field].Str?
      && FirstMatch(s.rules, entry.fields[s.field].s, matcher).Some?
      ==>
      var h := FirstMatch(s.rules, entry.fields[s.field].s, matcher).value;
      (o.Transformed? <==>
         && StoreMatch(entry.fields, s.rules[h.index], h.groups).Stored?
         && (!OverwriteEnabled(s) || s.overwrite.value in h.groups))
    ensures o.Failed? ==>
      || o.fault in {NotAnObject, MissingMessageField, MessageNotString, PropertiesNotObject}
      || (OverwriteEnabled(s) && o.fault == NoSuchGroup(s.overwrite.value))
  {
    if !entry.Obj? then Failed(NotAnObject)
    else if s.field !in entry.fields then Failed(MissingMessageField)
    else if |s.rules| == 0 then NoMatch
    else
      var message := entry.fields[s.field];
      if !message.Str? then Failed(MessageNotString)
      else
        match FirstMatch(s.rules, message.s, matcher)
        case None => NoMatch
        case Some(h) => ApplyRule(s, entry.fields, s.rules[h.index], h.groups)
  }

  /** `entry` is an object whose message field is a string and `h` is the
      first rule that matches it. */
  predicate Matched(s: Settings, matcher: Matcher, entry: Value, h: Hit) {
    && entry.Obj?
    && s.field in entry.fields
    && entry.fields[s.field].Str?
    && FirstMatch(s.rules, entry.fields[s.field].s, matcher) == Some(h)
  }

  /** The key a rule's static property writes, if it writes one. */
  function StaticKeys(rule: Rule): set<string> {
    if rule.property.Some? && |rule.property.value| == 2 then {rule.property.value[0]} else {}
  }

  /** First match wins: the outcome is the effect of exactly the first
      matching rule, and replacing every rule after it changes nothing. */
  lemma FirstMatchWins(s: Settings, matcher: Matcher, entry: Value, h: Hit, later: seq<Rule>)
    requires Matched(s, matcher, entry, h)
    ensures Transform(s, matcher, entry) == ApplyRule(s, entry.fields, s.rules[h.index], h.groups)
    ensures Transform(s.(rules := s.rules[..h.index + 1] + later), matcher, entry)
         == Transform(s, matcher, entry)
  {
    var message := entry.fields[s.field].s;
    FirstMatchIgnoresLater(s.rules, message, matcher, later);
    var s' := s.(rules := s.rules[..h.index + 1] + later);
    assert FirstMatch(s'.rules, message, matcher) == Some(h);
    assert s'.rules[h.index] == s.rules[h.index];
    ApplyRuleIgnoresRules(s, s'.rules, entry.fields, s.rules[h.index], h.groups);
  }

  /** Applying a rule reads the settings' field and overwrite group but
      never the rule list. */
  lemma ApplyRuleIgnoresRules(s: Settings, rules: seq<Rule>, e: Entry, rule: Rule, groups: Groups)
    ensures ApplyRule(s.(rules := rules), e, rule, groups) == ApplyRule(s, e, rule, groups)
  {
    var stored := StoreMatch(e, rule, groups);
    if stored.Stored? {
      assert Overwrite(s.(rules := rules), stored.entry, groups) == Overwrite(s, stored.entry, groups);
    }
  }

  /** The entry the matching rule's store stage yields, when the whole
      transformation succeeds; the overwrite stage then finishes from it. */
  lemma StoredThenOverwritten(s: Settings, matcher: Matcher, entry: Value, h: Hit)
    returns (stored: Entry)
    requires Matched(s, matcher, entry, h)
    requires Transform(s, matcher, entry).Transformed?
    ensures StoreMatch(entry.fields, s.rules[h.index], h.groups) == Stored(stored)
    ensures Transform(s, matcher, entry) == Overwrite(s, stored, h.groups)
  {
    FirstMatchWins(s, matcher, entry, h, []);
    stored := StoreMatch(entry.fields, s.rules[h.index], h.groups).entry;
  }

  /** No match leaves the entry alone: the outcome is `NoMatch` exactly when
      the entry is an object with a message field and either there are no
      rules or the message is a string no rule matches. */
  lemma NoMatchExactly(s: Settings, matcher: Matcher, entry: Value)
    ensures Transform(s, matcher, entry) == NoMatch <==>
      && entry.Obj?
      && s.field in entry.fields
      && (|s.rules| == 0
          || (entry.fields[s.field].Str?
              && forall j :: 0 <= j < |s.rules| ==> matcher(s.rules[j].pattern, entry.fields[s.field].s).None?))
  {
    if entry.Obj? && s.field in entry.fields && |s.rules| > 0 && entry.fields[s.field].Str? {
      var m := FirstMatch(s.rules, entry.fields[s.field].s, matcher);
      if m.Some? {
        assert matcher(s.rules[m.value.index].pattern, entry.fields[s.field].s).Some?;
      }
    }
  }

  /** Properties on a match: `Properties` exists afterwards; when the entry
      had none, or had an object, every named group is in it with its value
      (unless the static property overrides it), keys no group names are
      kept, and nothing but the groups and the static key is added. No other
      top-level field changes besides the message field and
      `MessageTemplate`, and no top-level field is created besides
      `Properties`. */
  lemma PropertiesOnMatch(s: Settings, matcher: Matcher, entry: Value, h: Hit)
    requires Matched(s, matcher, entry, h)
    requires Transform(s, matcher, entry).Transformed?
    ensures var out := Transform(s, matcher, entry).entry;
      && out.Keys == entry.fields.Keys + {"Properties"}
      && (forall k :: k in entry.fields && k != "Properties" && k != s.field && k != "MessageTemplate" ==>
            out[k] == entry.fields[k])
    ensures var out := Transform(s, matcher, entry).entry;
      var rule := s.rules[h.index];
      s.field != "Properties" && ("Properties" !in entry.fields || entry.fields["Properties"].Obj?) ==>
        && out["Properties"].Obj?
        && var before := if "Properties" in entry.fields then entry.fields["Properties"].fields else map[];
           var props := out["Properties"].fields;
           && props.Keys == before.Keys + h.groups.Keys + StaticKeys(rule)
           && (forall g :: g in h.groups && g !in StaticKeys(rule) ==> props[g] == GroupValue(h.groups[g]))
           && (forall k :: k in before && k !in h.groups && k !in StaticKeys(rule) ==> props[k] == before[k])
  {
    var stored := StoredThenOverwritten(s, matcher, entry, h);
    StoreMatchFrame(entry.fields, s.rules[h.index], h.groups);
    if "Properties" !in entry.fields || entry.fields["Properties"].Obj? {
      StoreMatchProperties(entry.fields, s.rules[h.index], h.groups);
    }
    var out := Transform(s, matcher, entry).entry;
    if s.field != "Properties" {
      assert out["Properties"] == stored["Properties"];
    }
  }

  /** The static property wins: it is written after the groups, so it holds
      even when a group has the same name. */
  lemma StaticPropertyWins(s: Settings, matcher: Matcher, entry: Value, h: Hit)
    requires Matched(s, matcher, entry, h)
    requires Transform(s, matcher, entry).Transformed?
    requires s.field != "Properties"
    requires s.rules[h.index].property.Some? && |s.rules[h.index].property.value| == 2
    ensures var out := Transform(s, matcher, entry).entry;
      var p := s.rules[h.index].property.value;
      && out["Properties"].Obj?
      && p[0] in out["Properties"].fields
      && out["Properties"].fields[p[0]] == Str(p[1])
  {
    var stored := StoredThenOverwritten(s, matcher, entry, h);
    StoreMatchStatic(entry.fields, s.rules[h.index], h.groups);
    assert Transform(s, matcher, entry).entry["Properties"] == stored["Properties"];
  }

  /** The overwrite rule: when enabled, the message field becomes the named
      group's value and so does `MessageTemplate`, but only if the entry
      already had it; when disabled, both are left as they were. */
  lemma OverwriteRule(s: Settings, matcher: Matcher, entry: Value, h: Hit)
    requires Matched(s, matcher, entry, h)
    requires Transform(s, matcher, entry).Transformed?
    ensures var out := Transform(s, matcher, entry).entry;
      OverwriteEnabled(s) ==>
        && s.overwrite.value in h.groups
        && var v := GroupValue(h.groups[s.overwrite.value]);
           && out[s.field] == v
           && ("MessageTemplate" in entry.fields ==> out["MessageTemplate"] == v)
           && (s.field != "MessageTemplate" ==> ("MessageTemplate" in out <==> "MessageTemplate" in entry.fields))
    ensures var out := Transform(s, matcher, entry).entry;
      !OverwriteEnabled(s) && s.field != "Properties" ==>
        && out[s.field] == entry.fields[s.field]
        && ("MessageTemplate" in out <==> "MessageTemplate" in entry.fields)
        && ("MessageTemplate" in entry.fields ==> out["MessageTemplate"] == entry.fields["MessageTemplate"])
  {
    var stored := StoredThenOverwritten(s, matcher, entry, h);
    StoreMatchFrame(entry.fields, s.rules[h.index], h.groups);
  }

  /** A match is rewritten whenever nothing on the way can raise: an
      existing `Properties` is an object, the rule's property (if any) has
      a '=', and the overwrite group (if enabled) is one the pattern has. */
  lemma MatchTransforms(s: Settings, matcher: Matcher, entry: Value, h: Hit)
    requires Matched(s, matcher, entry, h)
    requires "Properties" !in entry.fields || entry.fields["Properties"].Obj?
    requires s.rules[h.index].property.None? || |s.rules[h.index].property.value| == 2
    requires !OverwriteEnabled(s) || s.overwrite.value in h.groups
    ensures Transform(s, matcher, entry).Transformed?
  {
    FirstMatchWins(s, matcher, entry, h, []);
  }

  /** A group named by `OVERWRITE_CONTENTS` that the matching pattern lacks
      fails the entry (`match.group` raises IndexError) whenever the rule's
      property is well formed; a store failure before it fails it as well. */
  lemma MissingOverwriteGroup(s: Settings, matcher: Matcher, entry: Value, h: Hit)
    requires Matched(s, matcher, entry, h)
    requires OverwriteEnabled(s) && s.overwrite.value !in h.groups
    requires s.rules[h.index].property.None? || |s.rules[h.index].property.value| == 2
    ensures Transform(s, matcher, entry).Failed?
  {
    FirstMatchWins(s, matcher, entry, h, []);
  }
}

=== FILE: text.dfy ===
/** String helpers with Python's `str` semantics: `strip()`, `split(sep)`,
    `sep.join(parts)`, `split(sep, 1)`, `startswith`, `endswith` and the
    decimal rendering of a positive index in an f-string. */
module Text {

  /** Python's `str.isspace` for one character: the characters `strip()`
      with no argument removes. */
  predicate IsSpace(c: char) {
    || c == ' '
    || ('\t' <= c <= '\r')
    || ('\U{1c}' <= c <= '\U{1f}')
    || c == '\U{85}'
    || c == '\U{a0}'
    || c == '\U{1680}'
    || ('\U{2000}' <= c <= '\U{200a}')
    || c == '\U{2028}'
    || c == '\U{2029}'
    || c == '\U{202f}'
    || c == '\U{205f}'
    || c == '\U{3000}'
  }

  /** `s` has no whitespace at either end (the empty string qualifies). */
  predicate Trimmed(s: string) {
    |s| == 0 || (!IsSpace(s[0]) && !IsSpace(s[|s| - 1]))
  }

  /** How many characters of whitespace `s` starts with. */
  function LeadingSpaces(s: string): (n: nat)
    ensures n <= |s|
    ensures forall i :: 0 <= i < n ==> IsSpace(s[i])
    ensures n == |s| || !IsSpace(s[n])
  {
    if |s| > 0 && IsSpace(s[0]) then 1 + LeadingSpaces(s[1..]) else 0
  }

  /** How many characters of whitespace `s` ends with. */
  function TrailingSpaces(s: string): (n: nat)
    ensures n <= |s|
    ensures forall i :: |s| - n <= i < |s| ==> IsSpace(s[i])
    ensures n == |s| || !IsSpace(s[|s| - n - 1])
  {
    if |s| > 0 && IsSpace(s[|s| - 1]) then 1 + TrailingSpaces(s[..|s| - 1]) else 0
  }

  /** Python's `s.strip()`: `s` without its leading and trailing whitespace.
      The result is the slice of `s` that starts right after the leading
      whitespace, is followed by nothing but whitespace, and neither starts
      nor ends with whitespace; these facts determine it. */
  function Strip(s: string): (r: string)
    ensures |r| <= |s|
    ensures LeadingSpaces(s) + |r| <= |s| && r == s[LeadingSpaces(s)..LeadingSpaces(s) + |r|]
    ensures forall i :: LeadingSpaces(s) + |r| <= i < |s| ==> IsSpace(s[i])
    ensures Trimmed(r)
    ensures r == "" <==> forall i :: 0 <= i < |s| ==> IsSpace(s[i])
  {
    var a := LeadingSpaces(s);
    if a == |s| then ""
    else
      var b := TrailingSpaces(s);
      assert a < |s| - b;
      s[a..|s| - b]
  }

  /** Stripping a string that is already trimmed changes nothing. */
  lemma StripTrimmed(s: string)
    requires Trimmed(s)
    ensures Strip(s) == s
  {
  }

  /** `strip()` is idempotent. */
  lemma StripIdempotent(s: string)
    ensures Strip(Strip(s)) == Strip(s)
  {
    StripTrimmed(Strip(s));
  }

  /** Index of the first occurrence of `c` in `s`. */
  function FirstIndex(s: string, c: char): (i: nat)
    requires c in s
    ensures i < |s| && s[i] == c && c !in s[..i]
  {
    if s[0] == c then 0 else 1 + FirstIndex(s[1..], c)
  }

  /** Python's `sep.join(parts)` for a one-character separator. */
  function Join(parts: seq<string>, sep: char): string
  {
    if |parts| == 0 then ""
    else if |parts| == 1 then parts[0]
    else parts[0] + [sep] + Join(parts[1..], sep)
  }

  /** Python's `s.split(sep)` for a one-character separator: the pieces
      between separators, in order, never empty as a list. */
  function Split(s: string, sep: char): (parts: seq<string>)
    ensures |parts| >= 1
    ensures forall i :: 0 <= i < |parts| ==> sep !in parts[i]
    ensures Join(parts, sep) == s
    decreases |s|
  {
    if sep !in s then [s]
    else
      var i := FirstIndex(s, sep);
      var rest := Split(s[i + 1..], sep);
      assert s == s[..i] + [sep] + s[i + 1..];
      [s[..i]] + rest
  }

  /** Splitting a join recovers the parts, provided no part contains the
      separator and there is at least one part. */
  lemma {:induction false} SplitJoin(parts: seq<string>, sep: char)
    requires |parts| >= 1
    requires forall i :: 0 <= i < |parts| ==> sep !in parts[i]
    ensures Split(Join(parts, sep), sep) == parts
    decreases |parts|
  {
    if |parts| == 1 {
      assert Join(parts, sep) == parts[0];
    } else {
      var p := parts[0];
      var rest := parts[1..];
      var s := Join(parts, sep);
      assert s == p + [sep] + Join(rest, sep);
      assert s[|p|] == sep;
      var i := FirstIndex(s, sep);
      assert i == |p|;
      assert s[..i] == p;
      assert s[i + 1..] == Join(rest, sep);
      SplitJoin(rest, sep);
    }
  }

  /** Python's `s.split(sep, 1)`: one piece when `sep` does not occur,
      otherwise the text before its first occurrence and everything after. */
  function SplitOnce(s: string, sep: char): (r: seq<string>)
    ensures |r| == 1 || |r| == 2
    ensures |r| == 2 <==> sep in s
    ensures |r| == 1 ==> r[0] == s
    ensures |r| == 2 ==> sep !in r[0] && r[0] + [sep] + r[1] == s
  {
    if sep in s then
      var i := FirstIndex(s, sep);
      assert s == s[..i] + [sep] + s[i + 1..];
      [s[..i], s[i + 1..]]
    else [s]
  }

  /** Python's `s.startswith(prefix)`. */
  predicate StartsWith(s: string, prefix: string) {
    prefix <= s
  }

  /** Python's `s.endswith(c)` for a one-character suffix. */
  predicate EndsWith(s: string, c: char) {
    |s| > 0 && s[|s| - 1] == c
  }

  function Digit(d: nat): char
    requires d < 10
  {
    ('0' as int + d) as char
  }

  /** The number a string of decimal digits denotes. */
  function DigitsValue(r: string): nat
    requires forall i :: 0 <= i < |r| ==> '0' <= r[i] <= '9'
  {
    if |r| == 0 then 0 else DigitsValue(r[..|r| - 1]) * 10 + (r[|r| - 1] as int - '0' as int)
  }

  /** Decimal rendering of `n`, as `f'{n}'` produces it. */
  function Decimal(n: nat): (r: string)
    ensures |r| >= 1
    ensures |r| == 1 <==> n < 10
    ensures forall i :: 0 <= i < |r| ==> '0' <= r[i] <= '9'
  {
    if n < 10 then [Digit(n)] else Decimal(n / 10) + [Digit(n % 10)]
  }

  /** The rendering denotes `n` and has no leading zero. */
  lemma {:induction false} DecimalValue(n: nat)
    ensures DigitsValue(Decimal(n)) == n
    ensures Decimal(n)[0] == '0' <==> n == 0
    decreases n
  {
    if n >= 10 {
      var p := Decimal(n / 10);
      var r := Decimal(n);
      assert r == p + [Digit(n % 10)];
      assert r[..|r| - 1] == p;
      DecimalValue(n / 10);
    }
  }

  /** Different numbers render differently. */
  lemma {:induction false} DecimalInjective(a: nat, b: nat)
    requires Decimal(a) == Decimal(b)
    ensures a == b
    decreases a
  {
    if a >= 10 {
      var da := Decimal(a);
      assert da == Decimal(a / 10) + [Digit(a % 10)];
      assert Decimal(b) == Decimal(b / 10) + [Digit(b % 10)];
      assert Digit(a % 10) == da[|da| - 1] == Digit(b % 10);
      assert Decimal(a / 10) == da[..|da| - 1] == Decimal(b / 10);
      DecimalInjective(a / 10, b / 10);
    }
  }
}

=== FILE: wrappers.dfy ===
/** Optional values (an unset environment variable, a missing header) and
    outcomes of steps that can raise an exception. */
module Wrappers {

  datatype Option<+T> = None | Some(value: T) {

    /** The value, or `default` when absent (Python's `dict.get(key, default)`). */
    function GetOr(default: T): T {
      match this
      case Some(v) => v
      case None => default
    }
  }

  /** The value of a step that either yields `value` or raises `error`. */
  datatype Result<+R, +E> = Success(value: R) | Failure(error: E)

  /** Looks `key` up in `m`, as `m.get(key)` does. */
  function Lookup<K, V>(m: map<K, V>, key: K): (r: Option<V>)
    ensures r.Some? <==> key in m
    ensures r.Some? ==> r.value == m[key]
  {
    if key in m then Some(m[key]) else None
  }
}
